=== FILE: README.md ===
# Ghostty control-plane router and `ghostmux` client: a Dafny model

Ghostty's macOS app exposes terminal ("surface") state and control operations
over a local socket, using HTTP-shaped requests. `ghostmux` is a small
command-line client for that socket. This project models, as pure Dafny
functions, the three pieces of decision logic in that system and proves
their properties:

- **The request router** (`APIRouter.route` and its two generation routers).
  It splits the path on `/`, requires `api` followed by `v1` or `v2`, and
  switches on the number of remaining segments and on literal segments.
  Every request ends in exactly one of three outcomes:
  - a handler invocation with the arguments taken from the path and query
    (`Handled(h)`);
  - "not found" with a message;
  - "method not allowed" with the methods that path serves.

  Handlers are tags of the `Handler` datatype. The router is total over any
  method, path, query and body.
- **The target resolver** (`resolveTarget`). It looks a user-supplied target
  up in a list of terminals by exact id, then exact title ignoring case, then
  a title substring ignoring case, then id prefix. The first match wins.
- **Socket-path resolution** (`defaultSocketPath`). The environment and the
  home directory are passed in as parameters.
- **The CLI entry point** (`resolveCommand`, `main`). It shows usage when
  there are no arguments or when a help flag appears anywhere. Otherwise it
  looks the command up by name or alias in an ordered registry and rejects
  unknown names. A known command runs once on the remaining arguments. The
  visible behaviour is a trace of effects plus an exit status.

## Layout

| file | module | models |
|---|---|---|
| `common.dfy` | `Common` | `Option`, ASCII lower-casing, prefix/suffix/substring, `Join`, dictionary lookup |
| `path_split.dfy` | `PathSplit` | `split(separator: "/")` and its round trip with `Join` |
| `api_router.dfy` | `ApiRouter` | `route`, `routeAPIRequestV1`, `routeAPIRequestV2` |
| `router_properties.dfy` | `RouterProperties` | per-shape and cross-method properties of the router |
| `route_table.dfy` | `RouteTable` | a declarative table of the endpoints named by the router's route comments, with the handler each builds, and the router's agreement with it |
| `ghostmux_utils.dfy` | `GhostmuxUtils` | `Terminal`, `resolveTarget`, `defaultSocketPath` |
| `ghostmux_main.dfy` | `GhostmuxMain` | the command registry, `resolveCommand`, `main` |

## Behaviour of the code worth knowing

- **Path splitting.** The comment at `APIRouter.swift:14` speaks only of
  leading and trailing slashes. The call below it, Swift's
  `split(separator: "/")`, drops every empty piece, interior ones included.
  So `/api//v1` routes like `/api/v1`. See `PathSplit.DoubledSlashIsSingle`,
  `PathSplit.SplitExample` and `RouterProperties.RouteIgnoresDoubledSlash`.
- **Exact title before substring.** Resolving `Build` against
  `[abc-1 "build", abc-2 "Build Server"]` gives the first terminal: `build`
  equals `Build` once both are lower-cased, and the exact-title rule
  (`Utils.swift:10-12`) runs before the substring rule. See
  `GhostmuxUtils.ExampleExactTitle`.
- **The mouse fallback.** On `/api/v2/terminals/{id}/mouse/{y}` with `y` not
  `button`, `position` or `scroll`, the router checks the method before the
  sub-resource (`APIRouter.swift:213-226`):
  - a POST gets "not found";
  - any other method gets "method not allowed" with `{POST}`, although POST
    is not served there either.

  This is the only path whose allow-set names a method the path does not
  serve. It is stated exactly by `RouterProperties.MouseChecksMethodFirst`,
  and it is the one exception in `RouterProperties.AllowSetIsExact` and
  `RouteTable.RouterAgreesWithTable`.

## Model

| member | source | states |
|---|---|---|
| `PathSplit.Split` | macos/Sources/Features/API/APIRouter.swift:15-17 | splitting never produces an empty segment or a segment containing `/` |
| `PathSplit.SplitJoin` | macos/Sources/Features/API/APIRouter.swift:15-17 | joining well-formed segments with `/` and splitting the result gives the same segments back |
| `PathSplit.SplitCanonical` | macos/Sources/Features/API/APIRouter.swift:15-17 | `/s1/s2/...` splits into exactly `s1, s2, ...` for any non-empty, slash-free segments |
| `PathSplit.SplitEmptyIffSlashes` | macos/Sources/Features/API/APIRouter.swift:15-20 | a path has no segments if and only if it consists of slashes only (the empty path included) |
| `PathSplit.SplitFromSlash` | macos/Sources/Features/API/APIRouter.swift:15-17 | a `/` ends the segment being read: splitting `a/b` gives the pieces of `a` followed by the pieces of `b` |
| `PathSplit.SplitAtSlash` | macos/Sources/Features/API/APIRouter.swift:15-17 | `split(a + "/" + b)` is `split(a) + split(b)` for every `a` and `b` |
| `PathSplit.DoubledSlashIsSingle` | macos/Sources/Features/API/APIRouter.swift:15-17 | a doubled slash anywhere splits exactly like a single one: interior empty pieces are dropped |
| `PathSplit.SplitPiece` | macos/Sources/Features/API/APIRouter.swift:15-17 | a non-empty, slash-free string is a single segment |
| `PathSplit.SplitExample` | macos/Sources/Features/API/APIRouter.swift:15-17 | `/api//v1/` splits into `api, v1` |
| `ApiRouter.RouteV1` | macos/Sources/Features/API/APIRouter.swift:47-112 | any allow-set it returns is non-empty and excludes the request's method; a handler is reached only with the method its route comment names, and only a generation-one handler (or the info endpoint). Which handler, with which arguments, is fixed by `RouteTable.V1Agrees` |
| `ApiRouter.RouteV2` | macos/Sources/Features/API/APIRouter.swift:115-236 | the same for generation two: non-empty allow-sets without the request's method; only generation-two handlers, each with the method its route comment names. Which handler, with which arguments, is fixed by `RouteTable.V2Agrees` |
| `ApiRouter.RouteSegments` | macos/Sources/Features/API/APIRouter.swift:19-43 | the info handler is returned exactly for no segments (any method) or for `GET /api/v1`; every other handler is reached under `api` plus its own generation and with its own method |
| `ApiRouter.Route` | macos/Sources/Features/API/APIRouter.swift:13-44 | for a raw request: allow-sets are non-empty and never contain the request's method; every non-info handler is reached only with its own method, on a path whose split starts with `api` and the handler's generation |
| `RouterProperties.RouteOnCanonicalPath` | macos/Sources/Features/API/APIRouter.swift:15-17 | routing the raw path `/s1/.../sn` is routing the segments `s1 ... sn` |
| `RouterProperties.RouteIgnoresDoubledSlash` | macos/Sources/Features/API/APIRouter.swift:13-17 | a request whose path has `//` somewhere gets the same response as with `/` there |
| `RouterProperties.RootPathIsApiInfo` | macos/Sources/Features/API/APIRouter.swift:19-22 | a request is answered by the info handler exactly when its path is all slashes (any method) or splits to `api, v1` under GET |
| `RouterProperties.InvalidPrefixIsNotFound` | macos/Sources/Features/API/APIRouter.swift:24-43 | non-empty paths with fewer than two segments, a first segment other than `api`, or a version other than `v1`/`v2` are "not found" with the invalid-path message, whatever the method |
| `RouterProperties.UnknownVersionIsNotFound` | macos/Sources/Features/API/APIRouter.swift:36-43 | `/api/<v>/...` with `v` neither `v1` nor `v2` is "not found" for every method and every rest of path |
| `RouterProperties.AllowSetIsExactV1` | macos/Sources/Features/API/APIRouter.swift:47-112 | in generation one, the allow-set is exactly the set of methods the same path hands to a handler, and every method outside it gets the same allow-set |
| `RouterProperties.AllowSetIsExactV2` | macos/Sources/Features/API/APIRouter.swift:115-236 | the same in generation two, except on the mouse fallback, where no method is handled |
| `RouterProperties.AllowSetIsExact` | macos/Sources/Features/API/APIRouter.swift:13-236 | for any request refused with allow-set `S`: a method is handled on that path if and only if it is in `S` (mouse fallback excepted), and every method outside `S` is refused with the same `S` |
| `RouterProperties.NotFoundIsMethodIndependentV1` | macos/Sources/Features/API/APIRouter.swift:47-112 | in generation one, whether a path is "not found" does not depend on the method |
| `RouterProperties.NotFoundIsMethodIndependentV2` | macos/Sources/Features/API/APIRouter.swift:115-236 | the same in generation two, on every path except the mouse fallback |
| `RouterProperties.NotFoundIsMethodIndependent` | macos/Sources/Features/API/APIRouter.swift:13-236 | on every path except the mouse fallback, two methods are either both "not found" or both not |
| `RouterProperties.MouseChecksMethodFirst` | macos/Sources/Features/API/APIRouter.swift:213-226 | `terminals/{id}/mouse/{button,position,scroll}` accept only POST and pass the id and body through; for any other sub-resource POST is "not found" and every other method is refused with `{POST}` |
| `RouterProperties.V1FocusedIsKeyword` | macos/Sources/Features/API/APIRouter.swift:67-82 | `/api/v1/surfaces/focused` is the focused-surface endpoint (GET only); the by-id handler is reached for `/api/v1/surfaces/{id}` exactly when the method is GET and `id` is not `focused` |
| `RouterProperties.V2FocusedIsKeyword` | macos/Sources/Features/API/APIRouter.swift:147-154 | `/api/v2/terminals/focused` is the focused-terminal endpoint (GET only) |
| `RouterProperties.FocusedNeverAnIdentifier` | macos/Sources/Features/API/APIRouter.swift:67-166 | no request reaches get-surface, get-terminal or close-terminal with the identifier `focused` |
| `RouterProperties.V1SubResources` | macos/Sources/Features/API/APIRouter.swift:84-107 | `surfaces/{id}/commands` (GET), `/actions` (POST, with the body) and `/screen` (GET) route for every identifier, passing it through unchanged; any other method is refused with the single accepted one |
| `RouterProperties.V2TerminalsCollectionAndItem` | macos/Sources/Features/API/APIRouter.swift:123-166 | `/api/v2/terminals` serves GET (list) and POST (create) and refuses others with exactly `{GET, POST}`; `/api/v2/terminals/{id}`, id not `focused`, serves GET and DELETE (with the parsed `confirm` query value) and refuses others with exactly `{GET, DELETE}` |
| `RouterProperties.QueryOnlyMattersInV2` | macos/Sources/Features/API/APIRouter.swift:36-40 | outside generation two the outcome is the same for any two queries |
| `RouterProperties.LongV1PathsAreNotFound` | macos/Sources/Features/API/APIRouter.swift:109-110 | four or more segments after `/api/v1` are "not found" for every method, with a message echoing the method and path |
| `RouterProperties.LongV2PathsAreNotFound` | macos/Sources/Features/API/APIRouter.swift:233-234 | five or more segments after `/api/v2` are "not found" for every method, with a message echoing the method and path |
| `RouteTable.V1Unambiguous` | macos/Sources/Features/API/APIRouter.swift:67-80 | no path matches two generation-one table endpoints (the id slot excludes the `focused` keyword) |
| `RouteTable.V2Unambiguous` | macos/Sources/Features/API/APIRouter.swift:147-165 | no path matches two generation-two endpoints |
| `RouteTable.V1Agrees` | macos/Sources/Features/API/APIRouter.swift:47-112 | on every generation-one request, the switch serves exactly the listed methods of the matching table endpoint, with the handler and arguments (surface id, body) that endpoint builds; it refuses other methods with exactly that endpoint's methods, and is "not found" wherever no endpoint matches |
| `RouteTable.V2Agrees` | macos/Sources/Features/API/APIRouter.swift:115-236 | the same for generation two, handler and arguments included: terminal id, `detail` segment, body, the `terminal` query of `commands` and the parsed `confirm` query of DELETE. The one exception is a non-POST request on the unlisted mouse fallback, refused with `{POST}` |
| `RouteTable.RouterAgreesWithTable` | macos/Sources/Features/API/APIRouter.swift:13-44 | for every raw request, the router's outcome (handler with arguments, allow-set, or "not found") is the tables' verdict: the root is the info handler, bad prefixes are "not found", and the rest follows the generation's table (mouse fallback excepted) |
| `Common.Lower` | macos/Tools/ghostmux/Utils.swift:4 | the ASCII stand-in for `lowercased()`: same length, no upper-case ASCII letter left, and a character changes exactly when it is an upper-case ASCII letter |
| `Common.LowerIdempotent` | macos/Tools/ghostmux/Utils.swift:10 | lower-casing an already lower-cased title or target changes nothing, so comparing lowered strings is stable |
| `GhostmuxUtils.FirstWhere` | macos/Tools/ghostmux/Utils.swift:6-20 | returns the position of the first terminal satisfying a rule, and nothing if and only if no terminal satisfies it |
| `GhostmuxUtils.ResolveTarget` | macos/Tools/ghostmux/Utils.swift:3-23 | the first exact-id match wins whatever the titles; failing that, the first case-insensitive exact title; then the first case-insensitive title substring; then the first id prefix. The result is empty if and only if no terminal satisfies any rule, and otherwise belongs to the list |
| `GhostmuxUtils.ResolveByResolvedId` | macos/Tools/ghostmux/Utils.swift:3-23 | with unique ids, resolving the id of a resolved terminal gives that terminal back |
| `GhostmuxUtils.EmptyTargetResolves` | macos/Tools/ghostmux/Utils.swift:18-20 | the empty target resolves against any non-empty list, since every id has the empty prefix |
| `GhostmuxUtils.ExampleExactIds` | macos/Tools/ghostmux/Utils.swift:6-8 | over `[abc-1 "build", abc-2 "Build Server"]`, `abc-1` and `abc-2` resolve to the first and second terminal |
| `GhostmuxUtils.ExampleExactTitle` | macos/Tools/ghostmux/Utils.swift:10-12 | over the same list, `Build` resolves to the first terminal, by exact title ignoring case |
| `GhostmuxUtils.ExampleSubstring` | macos/Tools/ghostmux/Utils.swift:14-16 | `buil` resolves to the first terminal: both titles contain it, and list order decides |
| `GhostmuxUtils.ExamplePrefixAndMiss` | macos/Tools/ghostmux/Utils.swift:18-22 | `abc` resolves to the first terminal by id prefix; `abc-2x` resolves to nothing |
| `GhostmuxUtils.AppendPathComponent` | macos/Tools/ghostmux/Utils.swift:30-31 | the result is the directory without its trailing slashes, one `/`, then the component |
| `GhostmuxUtils.DefaultSocketPath` | macos/Tools/ghostmux/Utils.swift:25-32 | `GHOSTTY_API_SOCKET` wins when it is set and non-empty; otherwise the result is the home directory followed by `/Library/Application Support/Ghostty/api.sock`; it is never empty |
| `GhostmuxMain.ResolveCommand` | macos/Tools/ghostmux/main.swift:45-52 | returns the first registry entry whose name or one of whose aliases equals the given name, and nothing if and only if no entry does |
| `GhostmuxMain.RegistryLookups` | macos/Tools/ghostmux/main.swift:11-14 | each listed command name resolves to its own entry, and `capturep` resolves to `capture-pane` |
| `GhostmuxMain.Dispatch` | macos/Tools/ghostmux/main.swift:54-73 | usage is shown if and only if there are no arguments or `-h`/`--help` appears anywhere. Otherwise the first argument is looked up: the command is unknown if and only if no entry answers to it; a found command is the first that does, and it receives exactly the arguments after its name |
| `GhostmuxMain.DispatchKnownCommand` | macos/Tools/ghostmux/main.swift:61-69 | when no help flag is given and entry `k` is the first to answer to the first argument, the decision is to run `k` on the remaining arguments |
| `GhostmuxMain.ExitStatus` | macos/Tools/ghostmux/main.swift:78-86 | a run exits 0 if and only if it completed; both kinds of failure exit 1 |
| `GhostmuxMain.Main` | macos/Tools/ghostmux/main.swift:54-87 | the status is always 0 or 1. Usage prints usage and exits 0, doing nothing else. An unknown command writes exactly `error: unknown command '<name>'` and `run 'ghostmux --help' for usage` to standard error and exits 1, without creating a client or running anything. A known command's trace is exactly: create a client on the resolved socket path, run once on the arguments after its name, and, only if that run failed, write one `error:` line; it exits 1 exactly when that run failed |
| `GhostmuxMain.KnownCommandRuns` | macos/Tools/ghostmux/main.swift:66-86 | in the same situation, `main`'s trace is exactly a client on the resolved socket path, one run of entry `k` on the remaining arguments, and one `error:` line if that run failed; it exits with that run's status |
| `GhostmuxMain.UnknownCommandExample` | macos/Tools/ghostmux/main.swift:61-73 | `frobnicate` exits 1 with the two diagnostic lines and nothing else; `frobnicate -h` shows usage instead |

## Left out

- Handler bodies (`APIHandlers`) are not modelled. A handler invocation is the
  tag `Handled(h)`, carrying the arguments the router passes.
- `parseQueryBool` belongs to the handlers, whose source is not part of this
  model. It is a parameter of the router, applied to the `confirm` query
  value.
- `HTTPRequest`/`HTTPResponse` internals are not modelled. A request is a
  method, path, query map and optional opaque body. A response is one of the
  three outcomes.
- The `@MainActor` confinement and the `surfaceProvider` closure are
  concurrency and UI plumbing. The router is a pure function.
- Strings are modelled as sequences of code points, not of Swift's grapheme
  clusters, and compared code point by code point:
  - String `==` (router literals, exact id and title) does not identify
    canonically equivalent strings, such as `é` and `e` followed by U+0301;
  - `IsPrefix` can match a prefix that ends inside a grapheme cluster,
    where `hasPrefix` does not;
  - `split(separator: "/")` splits at a `/` even when a combining mark
    follows it, where Swift does not.
- Swift's Unicode `lowercased()` is modelled by ASCII lower-casing.
- Foundation's `contains` is modelled by plain substring search, in which the
  empty string occurs everywhere. For the empty target this choice does not
  change the result: the id-prefix rule then picks the first terminal too.
- `ProcessInfo`, `FileManager`, `fputs`, `print`, `exit` and `writeStdout`
  are I/O:
  - the environment map and home path are parameters;
  - printing and exiting are effects in the `Termination` trace;
  - the usage text itself is the tag `PrintUsage`.
- `URL.appendingPathComponent(...).path` is modelled as "drop trailing
  slashes, add one `/`, add the component". Percent-encoding and other URL
  normalisation are not modelled.
- `GhostmuxClient`, `CommandContext` and the command implementations
  (`ListSessionsCommand` and the rest) are not part of this model. Running a
  command is a parameter returning `Completed` or a classified/unclassified
  failure. The registry's names come from the usage text in `main.swift`,
  because the command types that declare them are not part of this model.
- `KeyStroke` has no logic to model.
- The `Terminal` fields other than `id` and `title` (working directory,
  focus, geometry) are read by no modelled logic.
- Resolution and routing are deterministic because both are Dafny
  functions; no lemma states it separately.

=== FILE: api_router.dfy ===
/**
 The control-plane request router. A request (method, path, query, body) is
 mapped to exactly one response: the invocation of a named handler with the
 arguments it extracted from the path and query, "not found" with a message,
 or "method not allowed" with the methods that path accepts. Routing splits
 the path into segments, expects `api` and a version (`v1` or `v2`), and then
 switches on the number of remaining segments and on literal segments at
 fixed positions. Handler bodies are not part of this model: a handler
 invocation is the tag `Handled(h)` carrying the handler and its arguments.
 */
module ApiRouter {
  import opened Common
  import opened PathSplit

  /** An opaque request body. */
  type Bytes = seq<bv8>

  datatype Request = Request(verb: string, path: string, query: map<string, string>, body: Option<Bytes>)

  /** The handler the router selects, with the arguments it passes. */
  datatype Handler =
    | ApiInfo
      // generation one: the flat `surfaces` resource
    | ListSurfaces
    | GetFocusedSurface
    | GetSurface(uuid: string)
    | ListCommands(uuid: string)
    | ExecuteAction(uuid: string, body: Option<Bytes>)
    | GetScreenContents(uuid: string)
      // generation two: the `terminals` resource
    | ApiInfoV2
    | ListTerminalsV2
    | CreateTerminalV2(body: Option<Bytes>)
    | OpenQuickTerminalV2
    | ListCommandsV2(terminal: Option<string>)
    | GetFocusedTerminalV2
    | GetTerminalV2(uuid: string)
    | CloseTerminalV2(uuid: string, confirm: bool)
    | FocusTerminalV2(uuid: string)
    | InputTerminalV2(uuid: string, body: Option<Bytes>)
    | ActionTerminalV2(uuid: string, body: Option<Bytes>)
    | KeyTerminalV2(uuid: string, body: Option<Bytes>)
    | GetScreenContentsV2(uuid: string)
    | GetTerminalDetailsV2(uuid: string, detail: string)
    | MouseButtonV2(uuid: string, body: Option<Bytes>)
    | MousePositionV2(uuid: string, body: Option<Bytes>)
    | MouseScrollV2(uuid: string, body: Option<Bytes>)

  datatype Response =
    | Handled(handler: Handler)
    | NotFound(message: string)
    | MethodNotAllowed(allowed: seq<string>)

  const InvalidApiPath := "Invalid API path. Expected /api/v1/... or /api/v2/..."
  const EndpointNotFound := "Endpoint not found"

  /** The diagnostic of a generation's deepest fallback: it echoes the method and the path. */
  function UnmatchedEndpoint(verb: string, version: string, path: seq<string>): string
  {
    "Endpoint not found: " + verb + " /api/" + version + "/" + Join(path, "/")
  }

  /**
   The method each handler answers to, as the route comment above each case
   of the two switches names it; `ApiInfo` is also served at the root path
   for every method.
   */
  function MethodOf(h: Handler): string
  {
    match h
    case ExecuteAction(_, _) => "POST"
    case CreateTerminalV2(_) => "POST"
    case OpenQuickTerminalV2 => "POST"
    case CloseTerminalV2(_, _) => "DELETE"
    case FocusTerminalV2(_) => "POST"
    case InputTerminalV2(_, _) => "POST"
    case ActionTerminalV2(_, _) => "POST"
    case KeyTerminalV2(_, _) => "POST"
    case MouseButtonV2(_, _) => "POST"
    case MousePositionV2(_, _) => "POST"
    case MouseScrollV2(_, _) => "POST"
    case _ => "GET"
  }

  /** The API generation a handler belongs to; `ApiInfo` belongs to none. */
  function Generation(h: Handler): string
  {
    match h
    case ApiInfo => ""
    case ListSurfaces => "v1"
    case GetFocusedSurface => "v1"
    case GetSurface(_) => "v1"
    case ListCommands(_) => "v1"
    case ExecuteAction(_, _) => "v1"
    case GetScreenContents(_) => "v1"
    case _ => "v2"
  }

  /** A leaf that accepts exactly one method. */
  function Only(verb: string, accepted: string, h: Handler): Response
  {
    if verb == accepted then Handled(h) else MethodNotAllowed([accepted])
  }

  /** Generation one; the segments after `/api/v1`. The query is not an input. */
  function RouteV1(verb: string, path: seq<string>, body: Option<Bytes>): (r: Response)
    ensures r.MethodNotAllowed? ==> |r.allowed| > 0 && verb !in r.allowed
    ensures r.Handled? ==> verb == MethodOf(r.handler)
    ensures r.Handled? && r.handler != ApiInfo ==> Generation(r.handler) == "v1"
  {
    if |path| == 0 then
      Only(verb, "GET", ApiInfo)
    else if |path| == 1 then
      if path[0] == "surfaces" then Only(verb, "GET", ListSurfaces)
      else NotFound(EndpointNotFound)
    else if |path| == 2 then
      if path[0] == "surfaces" then
        // the keyword is checked before the identifier slot
        if path[1] == "focused" then Only(verb, "GET", GetFocusedSurface)
        else Only(verb, "GET", GetSurface(path[1]))
      else NotFound(EndpointNotFound)
    else if |path| == 3 then
      if path[0] == "surfaces" then
        var uuid := path[1];
        if path[2] == "commands" then Only(verb, "GET", ListCommands(uuid))
        else if path[2] == "actions" then Only(verb, "POST", ExecuteAction(uuid, body))
        else if path[2] == "screen" then Only(verb, "GET", GetScreenContents(uuid))
        else NotFound(EndpointNotFound)
      else NotFound(EndpointNotFound)
    else
      NotFound(UnmatchedEndpoint(verb, "v1", path))
  }

  /**
   Generation two; the segments after `/api/v2`. `parseQueryBool` is the
   handlers' permissive boolean parser, applied to the `confirm` query value.
   */
  function RouteV2(verb: string, path: seq<string>, query: map<string, string>, body: Option<Bytes>,
                   parseQueryBool: Option<string> -> bool): (r: Response)
    ensures r.MethodNotAllowed? ==> |r.allowed| > 0 && verb !in r.allowed
    ensures r.Handled? ==> verb == MethodOf(r.handler) && Generation(r.handler) == "v2"
  {
    if |path| == 0 then
      Only(verb, "GET", ApiInfoV2)
    else if |path| == 1 then
      if path[0] == "terminals" then
        if verb == "GET" then Handled(ListTerminalsV2)
        else if verb == "POST" then Handled(CreateTerminalV2(body))
        else MethodNotAllowed(["GET", "POST"])
      else if path[0] == "quick-terminal" then Only(verb, "POST", OpenQuickTerminalV2)
      else if path[0] == "commands" then Only(verb, "GET", ListCommandsV2(Lookup(query, "terminal")))
      else NotFound(EndpointNotFound)
    else if |path| == 2 then
      if path[0] == "terminals" then
        // the keyword is checked before the identifier slot
        if path[1] == "focused" then Only(verb, "GET", GetFocusedTerminalV2)
        else
          var uuid := path[1];
          if verb == "GET" then Handled(GetTerminalV2(uuid))
          else if verb == "DELETE" then Handled(CloseTerminalV2(uuid, parseQueryBool(Lookup(query, "confirm"))))
          else MethodNotAllowed(["GET", "DELETE"])
      else NotFound(EndpointNotFound)
    else if |path| == 3 then
      if path[0] == "terminals" then
        var uuid := path[1];
        if path[2] == "focus" then Only(verb, "POST", FocusTerminalV2(uuid))
        else if path[2] == "input" then Only(verb, "POST", InputTerminalV2(uuid, body))
        else if path[2] == "action" then Only(verb, "POST", ActionTerminalV2(uuid, body))
        else if path[2] == "key" then Only(verb, "POST", KeyTerminalV2(uuid, body))
        else if path[2] == "screen" then Only(verb, "GET", GetScreenContentsV2(uuid))
        else NotFound(EndpointNotFound)
      else NotFound(EndpointNotFound)
    else if |path| == 4 then
      if path[0] == "terminals" then
        var uuid := path[1];
        if path[2] == "details" then Only(verb, "GET", GetTerminalDetailsV2(uuid, path[3]))
        else if path[2] == "mouse" then
          // the verb is checked before the mouse sub-resource
          if verb == "POST" then
            if path[3] == "button" then Handled(MouseButtonV2(uuid, body))
            else if path[3] == "position" then Handled(MousePositionV2(uuid, body))
            else if path[3] == "scroll" then Handled(MouseScrollV2(uuid, body))
            else NotFound(EndpointNotFound)
          else MethodNotAllowed(["POST"])
        else NotFound(EndpointNotFound)
      else NotFound(EndpointNotFound)
    else
      NotFound(UnmatchedEndpoint(verb, "v2", path))
  }

  /**
   The generation-two path `terminals/{id}/mouse/{other}` with an unknown
   sub-resource, where the method is checked before the sub-resource.
   */
  ghost predicate MouseFallbackV2(path: seq<string>)
  {
    && |path| == 4 && path[0] == "terminals" && path[2] == "mouse"
    && path[3] != "button" && path[3] != "position" && path[3] != "scroll"
  }

  /** The same shape as a whole split path, `/api/v2/terminals/{id}/mouse/{other}`. */
  ghost predicate MouseFallback(segs: seq<string>)
  {
    |segs| >= 2 && segs[0] == "api" && segs[1] == "v2" && MouseFallbackV2(segs[2..])
  }

  /** Routing on an already split path. */
  function RouteSegments(verb: string, segs: seq<string>, query: map<string, string>, body: Option<Bytes>,
                         parseQueryBool: Option<string> -> bool): (r: Response)
    ensures r.MethodNotAllowed? ==> |r.allowed| > 0 && verb !in r.allowed
    ensures r.Handled? && r.handler != ApiInfo ==>
              && verb == MethodOf(r.handler)
              && |segs| >= 2 && segs[0] == "api" && segs[1] == Generation(r.handler)
    ensures r == Handled(ApiInfo) <==> segs == [] || (segs == ["api", "v1"] && verb == "GET")
  {
    if |segs| == 0 then Handled(ApiInfo)
    else if |segs| < 2 || segs[0] != "api" then NotFound(InvalidApiPath)
    else if segs[1] == "v1" then RouteV1(verb, segs[2..], body)
    else if segs[1] == "v2" then RouteV2(verb, segs[2..], query, body, parseQueryBool)
    else NotFound(InvalidApiPath)
  }

  /**
   Routes one request. Every "method not allowed" response names at least
   one method and never the requested one; every handler other than the info
   endpoint is reached only with its own method and under its own
   generation's prefix.
   */
  function Route(req: Request, parseQueryBool: Option<string> -> bool): (r: Response)
    ensures r.MethodNotAllowed? ==> |r.allowed| > 0 && req.verb !in r.allowed
    ensures r.Handled? && r.handler != ApiInfo ==>
              && req.verb == MethodOf(r.handler)
              && |Split(req.path)| >= 2 && Split(req.path)[0] == "api"
              && Split(req.path)[1] == Generation(r.handler)
  {
    RouteSegments(req.verb, Split(req.path), req.query, req.body, parseQueryBool)
  }
}

=== FILE: common.dfy ===
/**
 Small shared vocabulary: an optional value, ASCII case folding and the
 string predicates (prefix, substring, join) the router and the command-line
 client are written in terms of.
 */
module Common {

  /** A value that may be absent, as Swift's `T?`. */
  datatype Option<T> = None | Some(value: T)

  /** ASCII lower-casing of one character; every other character is kept. */
  function LowerChar(c: char): char
  {
    if 'A' <= c <= 'Z' then (c as int + 32) as char else c
  }

  /**
   Lower-cases a string character by character (ASCII only): no upper-case
   ASCII letter survives, and exactly the upper-case ASCII letters change.
   */
  function Lower(s: string): (r: string)
    ensures |r| == |s|
    ensures forall i :: 0 <= i < |r| ==> !('A' <= r[i] <= 'Z')
    ensures forall i :: 0 <= i < |s| ==> (r[i] == s[i] <==> !('A' <= s[i] <= 'Z'))
  {
    seq(|s|, i requires 0 <= i < |s| => LowerChar(s[i]))
  }

  /** Lower-casing twice is lower-casing once: case-insensitive comparison is stable. */
  lemma LowerIdempotent(s: string)
    ensures Lower(Lower(s)) == Lower(s)
  {
    var r := Lower(s);
    forall i | 0 <= i < |r| ensures Lower(r)[i] == r[i] {
      assert !('A' <= r[i] <= 'Z');
    }
  }

  /** `s` starts with `p` (Swift's `hasPrefix`). */
  predicate IsPrefix(p: string, s: string)
  {
    |p| <= |s| && s[..|p|] == p
  }

  /** `s` ends with `p`. */
  predicate IsSuffix(p: string, s: string)
  {
    |p| <= |s| && s[|s| - |p|..] == p
  }

  /** `needle` occurs in `hay` starting at position `i`. */
  predicate OccursAt(hay: string, needle: string, i: int)
  {
    0 <= i <= |hay| - |needle| && hay[i..i + |needle|] == needle
  }

  /** `needle` occurs as a contiguous piece of `hay` (the empty string occurs everywhere). */
  predicate Contains(hay: string, needle: string)
  {
    exists i | 0 <= i <= |hay| - |needle| :: OccursAt(hay, needle, i)
  }

  /** Concatenates `parts`, putting `sep` between neighbours (Swift's `joined(separator:)`). */
  function Join(parts: seq<string>, sep: string): string
  {
    if |parts| == 0 then ""
    else if |parts| == 1 then parts[0]
    else parts[0] + sep + Join(parts[1..], sep)
  }

  /** Looks a key up in a string dictionary, as Swift's `dict[key]`. */
  function Lookup(m: map<string, string>, key: string): Option<string>
  {
    if key in m then Some(m[key]) else None
  }
}

=== FILE: ghostmux_main.dfy ===
/**
 The command-line client's entry point: help and usage precedence, lookup of
 the command by name or alias in an ordered registry, rejection of unknown
 commands, one run of the resolved command on the remaining arguments, and
 the exit status. Running a command is a parameter; the process's visible
 behaviour is a trace of effects ending in an exit status.
 */
module GhostmuxMain {
  import opened Common
  import opened GhostmuxUtils

  /** A registered command: its name and its aliases. */
  datatype Command = Command(name: string, aliases: seq<string>)

  /** The registry, in registration order, with the names the usage text lists. */
  const Registry: seq<Command> := [
    Command("list-surfaces", []),
    Command("send-keys", []),
    Command("set-title", []),
    Command("capture-pane", ["capturep"])
  ]

  /** `c` answers to `name`, by its name or one of its aliases. */
  predicate AnswersTo(c: Command, name: string)
  {
    c.name == name || name in c.aliases
  }

  /** The position of the first registered command answering to `name`. */
  function ResolveCommand(registry: seq<Command>, name: string): (r: Option<nat>)
    ensures r.Some? ==> && r.value < |registry| && AnswersTo(registry[r.value], name)
                        && forall j :: 0 <= j < r.value ==> !AnswersTo(registry[j], name)
    ensures r.None? <==> forall j :: 0 <= j < |registry| ==> !AnswersTo(registry[j], name)
  {
    if |registry| == 0 then None
    else if AnswersTo(registry[0], name) then Some(0)
    else match ResolveCommand(registry[1..], name)
      case None => None
      case Some(k) => Some(k + 1)
  }

  /** What the entry point decides to do with its arguments (the program name already dropped). */
  datatype Decision =
    | ShowUsage
    | UnknownCommand(name: string)
    | RunCommand(index: nat, args: seq<string>)

  /**
   No arguments, or `-h`/`--help` anywhere, shows usage before any lookup;
   otherwise the first argument names the command, which runs on the rest.
   */
  function Dispatch(registry: seq<Command>, args: seq<string>): (d: Decision)
    ensures d.ShowUsage? <==> |args| == 0 || "-h" in args || "--help" in args
    ensures d.UnknownCommand? <==>
              && |args| > 0 && "-h" !in args && "--help" !in args
              && forall j :: 0 <= j < |registry| ==> !AnswersTo(registry[j], args[0])
    ensures d.UnknownCommand? ==> d.name == args[0]
    ensures d.RunCommand? ==>
              && |args| > 0 && d.index < |registry| && AnswersTo(registry[d.index], args[0])
              && (forall j :: 0 <= j < d.index ==> !AnswersTo(registry[j], args[0]))
              && d.args == args[1..]
  {
    if |args| == 0 then ShowUsage
    else if "-h" in args || "--help" in args then ShowUsage
    else match ResolveCommand(registry, args[0])
      case None => UnknownCommand(args[0])
      case Some(i) => RunCommand(i, args[1..])
  }

  /** A failure a command raises: one of the client's own errors, or anything else. */
  datatype Failure = Classified(description: string) | Unclassified(rendered: string)

  /** How one run of a command ends. */
  datatype Outcome = Completed | Failed(failure: Failure)

  /** The process's exit status after a command run: 0 on completion, 1 on any failure. */
  function ExitStatus(o: Outcome): (status: int)
    ensures status == 0 <==> o.Completed?
    ensures status == 0 || status == 1
  {
    match o
    case Completed => 0
    case Failed(_) => 1
  }

  /** The single standard-error line a failure is reported with. */
  function FailureLine(f: Failure): string
  {
    match f
    case Classified(d) => "error: " + d
    case Unclassified(r) => "error: " + r
  }

  /** An observable step of the process. */
  datatype Effect =
    | PrintUsage
    | WriteStderr(line: string)
    | CreateClient(socketPath: string)
    | Run(index: nat, args: seq<string>)

  /** How the process ends: its exit status and everything it did, in order. */
  datatype Termination = Termination(status: int, effects: seq<Effect>)

  /** The number of command runs in a trace. */
  function Runs(effects: seq<Effect>): nat
  {
    if |effects| == 0 then 0 else (if effects[0].Run? then 1 else 0) + Runs(effects[1..])
  }

  /** Runs are counted piecewise over a concatenated trace. */
  lemma {:induction false} RunsAppend(a: seq<Effect>, b: seq<Effect>)
    ensures Runs(a + b) == Runs(a) + Runs(b)
    decreases |a|
  {
    if |a| == 0 {
      assert a + b == b;
    } else {
      assert (a + b)[0] == a[0];
      assert (a + b)[1..] == a[1..] + b;
      RunsAppend(a[1..], b);
    }
  }

  /**
   The entry point. `env` and `home` locate the socket; `run` stands for
   executing command `index` on its arguments. Usage ends with status 0 and
   nothing else; an unknown command writes two diagnostic lines and ends
   with status 1 before a client is created or anything is run; a known command creates one client, runs
   once on the arguments after its name and, only if that run failed,
   writes one `error:` line. The status is 1 exactly when the run failed,
   whatever kind of failure it was.
   */
  function Main(registry: seq<Command>, args: seq<string>, env: map<string, string>, home: string,
                run: (nat, seq<string>) -> Outcome): (t: Termination)
    ensures t.status == 0 || t.status == 1
    ensures Dispatch(registry, args).ShowUsage? ==> t == Termination(0, [PrintUsage])
    ensures Dispatch(registry, args).UnknownCommand? ==>
              && t == Termination(1, [WriteStderr("error: unknown command '" + args[0] + "'"),
                                      WriteStderr("run 'ghostmux --help' for usage")])
              && forall k :: 0 <= k < |t.effects| ==> !t.effects[k].CreateClient? && !t.effects[k].Run?
    ensures Dispatch(registry, args).RunCommand? ==>
              var d := Dispatch(registry, args);
              var o := run(d.index, args[1..]);
              && |args| > 0
              && t.effects == [CreateClient(DefaultSocketPath(env, home)), Run(d.index, args[1..])]
                              + (if o.Failed? then [WriteStderr(FailureLine(o.failure))] else [])
              && Runs(t.effects) == 1
              && t.status == ExitStatus(o)
  {
    match Dispatch(registry, args)
    case ShowUsage => Termination(0, [PrintUsage])
    case UnknownCommand(name) =>
      Termination(1, [WriteStderr("error: unknown command '" + name + "'"),
                      WriteStderr("run 'ghostmux --help' for usage")])
    case RunCommand(i, rest) =>
      var started := [CreateClient(DefaultSocketPath(env, home)), Run(i, rest)];
      var outcome := run(i, rest);
      var reported := if outcome.Failed? then [WriteStderr(FailureLine(outcome.failure))] else [];
      RunsAppend([CreateClient(DefaultSocketPath(env, home))], [Run(i, rest)]);
      RunsAppend(started, reported);
      assert Runs(reported) == 0;
      Termination(ExitStatus(outcome), started + reported)
  }

  /**
   A known command without a help flag is dispatched: when the first
   argument names registry entry `k` and no earlier entry, the decision is to
   run entry `k` on the remaining arguments.
   */
  lemma DispatchKnownCommand(registry: seq<Command>, args: seq<string>, k: nat)
    requires |args| > 0 && "-h" !in args && "--help" !in args
    requires k < |registry| && AnswersTo(registry[k], args[0])
    requires forall j :: 0 <= j < k ==> !AnswersTo(registry[j], args[0])
    ensures Dispatch(registry, args) == RunCommand(k, args[1..])
  {
    var r := ResolveCommand(registry, args[0]);
    assert r.Some?;
    assert !(k < r.value) by {
      assert AnswersTo(registry[k], args[0]);
    }
  }

  /**
   ... and then `main` creates one client, runs entry `k` exactly once on
   the remaining arguments, reports a failure on one line, and exits with
   the run's status.
   */
  lemma KnownCommandRuns(registry: seq<Command>, args: seq<string>, env: map<string, string>, home: string,
                         run: (nat, seq<string>) -> Outcome, k: nat)
    requires |args| > 0 && "-h" !in args && "--help" !in args
    requires k < |registry| && AnswersTo(registry[k], args[0])
    requires forall j :: 0 <= j < k ==> !AnswersTo(registry[j], args[0])
    ensures var t := Main(registry, args, env, home, run);
            var o := run(k, args[1..]);
            && Runs(t.effects) == 1
            && t.effects == [CreateClient(DefaultSocketPath(env, home)), Run(k, args[1..])]
                            + (if o.Failed? then [WriteStderr(FailureLine(o.failure))] else [])
            && t.status == ExitStatus(o)
  {
    DispatchKnownCommand(registry, args, k);
  }

  /** `capturep` is the alias of `capture-pane`; each name resolves to its own command. */
  lemma RegistryLookups()
    ensures ResolveCommand(Registry, "list-surfaces") == Some(0)
    ensures ResolveCommand(Registry, "send-keys") == Some(1)
    ensures ResolveCommand(Registry, "set-title") == Some(2)
    ensures ResolveCommand(Registry, "capture-pane") == Some(3)
    ensures ResolveCommand(Registry, "capturep") == Some(3)
  {
  }

  /**
   `frobnicate` is an unknown command and ends with status 1 without a
   client, but `frobnicate -h` shows usage: the help check comes first.
   */
  lemma UnknownCommandExample(env: map<string, string>, home: string, run: (nat, seq<string>) -> Outcome)
    ensures Main(Registry, ["frobnicate"], env, home, run).status == 1
    ensures Main(Registry, ["frobnicate"], env, home, run).effects
            == [WriteStderr("error: unknown command 'frobnicate'"), WriteStderr("run 'ghostmux --help' for usage")]
    ensures Main(Registry, ["frobnicate", "-h"], env, home, run) == Termination(0, [PrintUsage])
  {
    assert forall j :: 0 <= j < |Registry| ==> !AnswersTo(Registry[j], "frobnicate");
    assert "-h" !in ["frobnicate"] && "--help" !in ["frobnicate"];
    assert Dispatch(Registry, ["frobnicate"]) == UnknownCommand("frobnicate");
    assert "error: unknown command '" + "frobnicate" + "'" == "error: unknown command 'frobnicate'";
  }
}

=== FILE: ghostmux_utils.dfy ===
/**
 The command-line client's helpers: resolving a user-supplied target string
 to one terminal, and choosing the control socket's path.
 */
module GhostmuxUtils {
  import opened Common

  /** The control-plane view of a terminal, reduced to the fields resolution reads. */
  datatype Terminal = Terminal(id: string, title: string)

  /** The four resolution rules, in priority order. */
  datatype Rule = ExactId | ExactTitle | TitleContains | IdPrefix

  /** Does terminal `t` match `target` under `rule`? Titles compare case-insensitively. */
  predicate Satisfies(rule: Rule, target: string, t: Terminal)
  {
    match rule
    case ExactId => t.id == target
    case ExactTitle => Lower(t.title) == Lower(target)
    case TitleContains => Contains(Lower(t.title), Lower(target))
    case IdPrefix => IsPrefix(target, t.id)
  }

  /** `i` is the position of the first terminal of `ts` that matches under `rule`. */
  ghost predicate FirstSatisfying(rule: Rule, target: string, ts: seq<Terminal>, i: int)
  {
    && 0 <= i < |ts|
    && Satisfies(rule, target, ts[i])
    && forall j :: 0 <= j < i ==> !Satisfies(rule, target, ts[j])
  }

  /** No terminal of `ts` matches under `rule`. */
  ghost predicate NoneSatisfy(rule: Rule, target: string, ts: seq<Terminal>)
  {
    forall j :: 0 <= j < |ts| ==> !Satisfies(rule, target, ts[j])
  }

  /** The position of the first terminal matching under `rule` (Swift's `first(where:)`). */
  function FirstWhere(rule: Rule, target: string, ts: seq<Terminal>): (r: Option<nat>)
    ensures r.Some? ==> FirstSatisfying(rule, target, ts, r.value)
    ensures r.None? <==> NoneSatisfy(rule, target, ts)
  {
    if |ts| == 0 then None
    else if Satisfies(rule, target, ts[0]) then Some(0)
    else match FirstWhere(rule, target, ts[1..])
      case None => None
      case Some(k) => Some(k + 1)
  }

  /** Applies one rule and, when nothing matches, falls through to `next`. */
  function Stage(rule: Rule, target: string, ts: seq<Terminal>, next: Option<Terminal>): Option<Terminal>
  {
    match FirstWhere(rule, target, ts)
    case Some(i) => Some(ts[i])
    case None => next
  }

  /**
   Resolves `target` against `ts`: first match wins, by exact id, then by
   exact title ignoring case, then by title containing the target ignoring
   case, then by id prefix. The result is `None` exactly when no terminal
   matches any rule, and is otherwise an element of `ts`.
   */
  function ResolveTarget(target: string, ts: seq<Terminal>): (r: Option<Terminal>)
    ensures r.Some? ==> r.value in ts
    ensures forall i :: FirstSatisfying(ExactId, target, ts, i) ==> r == Some(ts[i])
    ensures NoneSatisfy(ExactId, target, ts) ==>
              forall i :: FirstSatisfying(ExactTitle, target, ts, i) ==> r == Some(ts[i])
    ensures NoneSatisfy(ExactId, target, ts) && NoneSatisfy(ExactTitle, target, ts) ==>
              forall i :: FirstSatisfying(TitleContains, target, ts, i) ==> r == Some(ts[i])
    ensures NoneSatisfy(ExactId, target, ts) && NoneSatisfy(ExactTitle, target, ts)
            && NoneSatisfy(TitleContains, target, ts) ==>
              forall i :: FirstSatisfying(IdPrefix, target, ts, i) ==> r == Some(ts[i])
    ensures r.None? <==> forall rule :: NoneSatisfy(rule, target, ts)
  {
    Stage(ExactId, target, ts,
      Stage(ExactTitle, target, ts,
        Stage(TitleContains, target, ts,
          Stage(IdPrefix, target, ts, None))))
  }

  /**
   When ids are unique, resolving the id of a resolved terminal gives that
   terminal back: an id is a stable handle for whatever a title or prefix
   resolved to.
   */
  lemma ResolveByResolvedId(target: string, ts: seq<Terminal>)
    requires forall i, j :: 0 <= i < j < |ts| ==> ts[i].id != ts[j].id
    requires ResolveTarget(target, ts).Some?
    ensures ResolveTarget(ResolveTarget(target, ts).value.id, ts) == ResolveTarget(target, ts)
  {
    var t := ResolveTarget(target, ts).value;
    var k :| 0 <= k < |ts| && ts[k] == t;
    assert FirstSatisfying(ExactId, t.id, ts, k);
  }

  /** Any non-empty list resolves the empty target: every id has the empty prefix. */
  lemma EmptyTargetResolves(ts: seq<Terminal>)
    requires |ts| > 0
    ensures ResolveTarget("", ts).Some?
  {
    assert Satisfies(IdPrefix, "", ts[0]);
  }

  /** A needle whose first character does not occur in `hay` does not occur in it. */
  lemma AbsentFirstChar(hay: string, needle: string)
    requires |needle| > 0 && needle[0] !in hay
    ensures !Contains(hay, needle)
  {
    forall i | 0 <= i <= |hay| - |needle|
      ensures !OccursAt(hay, needle, i)
    {
      assert hay[i..i + |needle|][0] == hay[i];
    }
  }

  /** The two terminals of the worked examples. */
  function ExampleTerminals(): seq<Terminal>
  {
    [Terminal("abc-1", "build"), Terminal("abc-2", "Build Server")]
  }

  lemma ExampleLowerTitles()
    ensures Lower("build") == "build"
    ensures Lower("Build Server") == "build server"
  {
    assert Lower("Build Server") == "build server" by {
      assert Lower("Build Server")[0] == 'b';
    }
  }

  /** Exact ids: `abc-1` and `abc-2` name the first and second terminal. */
  lemma ExampleExactIds()
    ensures ResolveTarget("abc-1", ExampleTerminals()) == Some(ExampleTerminals()[0])
    ensures ResolveTarget("abc-2", ExampleTerminals()) == Some(ExampleTerminals()[1])
  {
    var ts := ExampleTerminals();
    assert FirstSatisfying(ExactId, "abc-1", ts, 0);
    assert FirstSatisfying(ExactId, "abc-2", ts, 1);
  }

  /** `Build` equals the first title once both are lower-cased, so the substring rule never runs. */
  lemma ExampleExactTitle()
    ensures ResolveTarget("Build", ExampleTerminals()) == Some(ExampleTerminals()[0])
  {
    var ts := ExampleTerminals();
    ExampleLowerTitles();
    assert Lower("Build") == "build" by {
      assert Lower("Build")[0] == 'b';
    }
    assert NoneSatisfy(ExactId, "Build", ts);
    assert FirstSatisfying(ExactTitle, "Build", ts, 0);
  }

  /** `buil` is a piece of both titles; the first terminal in list order wins. */
  lemma ExampleSubstring()
    ensures ResolveTarget("buil", ExampleTerminals()) == Some(ExampleTerminals()[0])
  {
    var ts := ExampleTerminals();
    ExampleLowerTitles();
    assert Lower("buil") == "buil";
    assert NoneSatisfy(ExactId, "buil", ts);
    assert NoneSatisfy(ExactTitle, "buil", ts);
    assert OccursAt(Lower(ts[0].title), Lower("buil"), 0);
    assert FirstSatisfying(TitleContains, "buil", ts, 0);
  }

  /** `abc` is in no title, so the id-prefix rule picks the first terminal; `abc-2x` matches nothing. */
  lemma ExamplePrefixAndMiss()
    ensures ResolveTarget("abc", ExampleTerminals()) == Some(ExampleTerminals()[0])
    ensures ResolveTarget("abc-2x", ExampleTerminals()) == None
  {
    var ts := ExampleTerminals();
    ExampleLowerTitles();
    assert Lower("abc") == "abc";
    assert Lower("abc-2x") == "abc-2x";
    AbsentFirstChar("build", "abc");
    AbsentFirstChar("build server", "abc");
    AbsentFirstChar("build", "abc-2x");
    AbsentFirstChar("build server", "abc-2x");
    assert NoneSatisfy(ExactId, "abc", ts);
    assert NoneSatisfy(ExactTitle, "abc", ts);
    assert NoneSatisfy(TitleContains, "abc", ts);
    assert FirstSatisfying(IdPrefix, "abc", ts, 0);
    assert NoneSatisfy(ExactId, "abc-2x", ts);
    assert NoneSatisfy(ExactTitle, "abc-2x", ts);
    assert NoneSatisfy(TitleContains, "abc-2x", ts);
    assert NoneSatisfy(IdPrefix, "abc-2x", ts);
  }

  /** The environment variable that overrides the socket path. */
  const SocketEnvVar := "GHOSTTY_API_SOCKET"

  /** The socket's location relative to the user's home directory. */
  const SocketRelativePath := "Library/Application Support/Ghostty/api.sock"

  /** `home` without its trailing separators (a URL's `path` has none). */
  function TrimTrailingSlashes(home: string): (r: string)
    ensures IsPrefix(r, home)
    ensures |r| > 0 ==> r[|r| - 1] != '/'
    ensures forall i :: |r| <= i < |home| ==> home[i] == '/'
  {
    if |home| > 0 && home[|home| - 1] == '/' then TrimTrailingSlashes(home[..|home| - 1]) else home
  }

  /** Appends one relative component to a directory path, with exactly one separator between. */
  function AppendPathComponent(dir: string, component: string): (r: string)
    ensures IsSuffix("/" + component, r)
    ensures IsPrefix(TrimTrailingSlashes(dir), r)
    ensures |r| == |TrimTrailingSlashes(dir)| + 1 + |component|
  {
    var base := TrimTrailingSlashes(dir);
    var r := base + ("/" + component);
    assert r[..|base|] == base;
    assert r[|base|..] == "/" + component;
    r
  }

  /**
   The control socket's path: the environment override when it is set and
   non-empty, otherwise `Library/Application Support/Ghostty/api.sock` under
   the home directory. It is never empty.
   */
  function DefaultSocketPath(env: map<string, string>, home: string): (p: string)
    ensures SocketEnvVar in env && env[SocketEnvVar] != "" ==> p == env[SocketEnvVar]
    ensures !(SocketEnvVar in env && env[SocketEnvVar] != "") ==>
              && IsSuffix("/" + SocketRelativePath, p)
              && IsPrefix(TrimTrailingSlashes(home), p)
              && |p| == |TrimTrailingSlashes(home)| + 1 + |SocketRelativePath|
    ensures p != ""
  {
    var override := Lookup(env, SocketEnvVar);
    if override.Some? && override.value != "" then override.value
    else AppendPathComponent(home, SocketRelativePath)
  }
}

=== FILE: path_split.dfy ===
/**
 Splitting a request path into segments the way the router does it: on every
 `/`, with every empty piece dropped (Swift's `split(separator:)` with its
 default of omitting empty subsequences). Leading, trailing, repeated and
 interior double slashes therefore never produce an empty segment.
 */
module PathSplit {
  import opened Common

  /** One path segment as a client would write it: non-empty and slash-free. */
  ghost predicate Segment(x: string)
  {
    x != "" && '/' !in x
  }

  /** A segment list the splitter can produce: every element is a segment. */
  ghost predicate WellFormed(segs: seq<string>)
  {
    forall i :: 0 <= i < |segs| ==> Segment(segs[i])
  }

  /** The piece collected so far becomes a segment unless it is empty. */
  function Flush(cur: string): seq<string>
  {
    if cur == "" then [] else [cur]
  }

  /** Splits `p`, where `cur` holds the characters of the segment currently being read. */
  function SplitFrom(p: string, cur: string): (segs: seq<string>)
    requires '/' !in cur
    ensures WellFormed(segs)
    decreases |p|
  {
    if |p| == 0 then Flush(cur)
    else if p[0] == '/' then Flush(cur) + SplitFrom(p[1..], "")
    else SplitFrom(p[1..], cur + [p[0]])
  }

  /** The non-empty `/`-separated segments of `p`, in order. */
  function Split(p: string): (segs: seq<string>)
    ensures WellFormed(segs)
  {
    SplitFrom(p, "")
  }

  /** Reading a slash-free piece only extends the current segment. */
  lemma {:induction false} SplitFromPiece(s: string, rest: string, cur: string)
    requires '/' !in s && '/' !in cur
    ensures SplitFrom(s + rest, cur) == SplitFrom(rest, cur + s)
    decreases |s|
  {
    if |s| == 0 {
      assert s + rest == rest;
      assert cur + s == cur;
    } else {
      assert (s + rest)[0] == s[0];
      assert (s + rest)[1..] == s[1..] + rest;
      assert '/' !in s[1..];
      SplitFromPiece(s[1..], rest, cur + [s[0]]);
      assert cur + [s[0]] + s[1..] == cur + s;
    }
  }

  /** Joining well-formed segments with `/` and splitting again gives the segments back. */
  lemma {:induction false} SplitJoin(segs: seq<string>)
    requires WellFormed(segs)
    ensures Split(Join(segs, "/")) == segs
    decreases |segs|
  {
    if |segs| == 0 {
    } else if |segs| == 1 {
      SplitFromPiece(segs[0], "", "");
      assert segs[0] + "" == segs[0];
      assert "" + segs[0] == segs[0];
    } else {
      var tail := Join(segs[1..], "/");
      assert WellFormed(segs[1..]) by {
        forall i | 0 <= i < |segs[1..]|
          ensures Segment(segs[1..][i])
        {
          assert segs[1..][i] == segs[i + 1];
        }
      }
      assert Join(segs, "/") == segs[0] + ("/" + tail);
      SplitFromPiece(segs[0], "/" + tail, "");
      assert "" + segs[0] == segs[0];
      assert ("/" + tail)[1..] == tail;
      SplitJoin(segs[1..]);
      assert [segs[0]] + segs[1..] == segs;
    }
  }

  /** The canonical request path of a segment list: `/a/b/c`. */
  function Canonical(segs: seq<string>): string
  {
    "/" + Join(segs, "/")
  }

  /** The canonical path of well-formed segments splits back into them. */
  lemma SplitCanonical(segs: seq<string>)
    requires WellFormed(segs)
    ensures Split(Canonical(segs)) == segs
  {
    var p := Canonical(segs);
    assert p[0] == '/' && p[1..] == Join(segs, "/");
    SplitJoin(segs);
  }

  /** A path splits into no segments exactly when it consists of slashes only. */
  lemma {:induction false} SplitEmptyIffSlashes(p: string, cur: string)
    requires '/' !in cur
    ensures SplitFrom(p, cur) == [] <==> cur == "" && forall i :: 0 <= i < |p| ==> p[i] == '/'
    decreases |p|
  {
    if |p| == 0 {
    } else if p[0] == '/' {
      SplitEmptyIffSlashes(p[1..], "");
      if cur == "" {
        assert forall i :: 0 <= i < |p[1..]| ==> p[1..][i] == p[i + 1];
        if forall i :: 0 <= i < |p[1..]| ==> p[1..][i] == '/' {
          assert forall i :: 0 <= i < |p| ==> p[i] == '/' by {
            forall i | 0 <= i < |p| ensures p[i] == '/' {
              if i > 0 { assert p[i] == p[1..][i - 1]; }
            }
          }
        }
      }
    } else {
      SplitEmptyIffSlashes(p[1..], cur + [p[0]]);
      assert (cur + [p[0]]) != "" by { assert (cur + [p[0]])[|cur|] == p[0]; }
    }
  }

  /** A slash ends the segment being read: splitting `a/b` is splitting `a`, then `b` afresh. */
  lemma {:induction false} SplitFromSlash(a: string, b: string, cur: string)
    requires '/' !in cur
    ensures SplitFrom(a + "/" + b, cur) == SplitFrom(a, cur) + SplitFrom(b, "")
    decreases |a|
  {
    if |a| == 0 {
      assert a + "/" + b == "/" + b;
      assert ("/" + b)[1..] == b;
    } else {
      assert (a + "/" + b)[0] == a[0];
      assert (a + "/" + b)[1..] == a[1..] + "/" + b;
      if a[0] == '/' {
        SplitFromSlash(a[1..], b, "");
      } else {
        SplitFromSlash(a[1..], b, cur + [a[0]]);
      }
    }
  }

  /** Splitting distributes over a separating slash. */
  lemma SplitAtSlash(a: string, b: string)
    ensures Split(a + "/" + b) == Split(a) + Split(b)
  {
    SplitFromSlash(a, b, "");
  }

  /**
   A doubled slash anywhere splits like a single one: interior empty pieces
   are dropped, not kept as empty segments.
   */
  lemma DoubledSlashIsSingle(a: string, b: string)
    ensures Split(a + "//" + b) == Split(a + "/" + b)
  {
    assert a + "//" + b == a + "/" + ("/" + b);
    SplitAtSlash(a, "/" + b);
    assert "/" + b == "" + "/" + b;
    SplitAtSlash("", b);
    SplitAtSlash(a, b);
  }

  /** A slash-free, non-empty piece is one segment. */
  lemma SplitPiece(s: string)
    requires Segment(s)
    ensures Split(s) == [s]
  {
    SplitFromPiece(s, "", "");
    assert s + "" == s;
    assert "" + s == s;
  }

  /** `/api//v1/` has the two segments of `/api/v1`. */
  lemma SplitExample()
    ensures Split("/api//v1/") == ["api", "v1"]
  {
    SplitPiece("api");
    SplitPiece("v1");
    assert Split("") == [];
    SplitAtSlash("v1", "");
    assert "v1/" == "v1" + "/" + "";
    SplitAtSlash("", "v1/");
    assert "/v1/" == "" + "/" + "v1/";
    SplitAtSlash("api", "/v1/");
    assert "api//v1/" == "api" + "/" + "/v1/";
    SplitAtSlash("", "api//v1/");
    assert "/api//v1/" == "" + "/" + "api//v1/";
  }
}

=== FILE: route_table.dfy ===
/**
 A declarative table of the endpoints of both API generations, written
 from the route comments that head each case of the router's switches
 (`GET /api/v1`, `/api/v1/surfaces/{uuid}/commands`, ...): each endpoint is
 a segment pattern, the methods it serves and the handler it builds.
 A parameter slot lists the keywords it may not take, which is how the
 table expresses "the `focused` keyword wins over an identifier"; with that,
 no path matches two endpoints. The router's hand-written switch is proved
 to agree with this table on every request, handler and arguments
 included, apart from one shape the table
 does not list (the mouse fallback, stated separately).
 */
module RouteTable {
  import opened Common
  import opened PathSplit
  import opened ApiRouter

  /** One position of a pattern: a literal segment, or a parameter slot that excludes some keywords. */
  datatype Pat = Lit(word: string) | Param(reserved: seq<string>)

  /** What a request offers an endpoint besides its method: the path after the version, query, body, flag parser. */
  datatype Args = Args(path: seq<string>, query: map<string, string>, body: Option<Bytes>,
                       parseQueryBool: Option<string> -> bool)

  /**
   An endpoint: the segments after `/api/<version>`, the methods it serves,
   and the handler it builds for a served method from the request.
   */
  datatype Endpoint = Endpoint(pattern: seq<Pat>, methods: seq<string>, build: (string, Args) -> Handler)

  predicate PatMatches(p: Pat, seg: string)
  {
    match p
    case Lit(w) => seg == w
    case Param(reserved) => seg !in reserved
  }

  predicate Matches(pattern: seq<Pat>, path: seq<string>)
  {
    |pattern| == |path| && forall k :: 0 <= k < |path| ==> PatMatches(pattern[k], path[k])
  }

  const Id := Param([])

  /** The parameter at position `i` of a matched path (total, so that a table entry can name it). */
  function At(path: seq<string>, i: nat): string
  {
    if i < |path| then path[i] else ""
  }

  /** Generation one, as the route comments of the generation-one switch list it. */
  const V1Endpoints: seq<Endpoint> := [
    Endpoint([], ["GET"], (v, a) => ApiInfo),
    Endpoint([Lit("surfaces")], ["GET"], (v, a) => ListSurfaces),
    Endpoint([Lit("surfaces"), Lit("focused")], ["GET"], (v, a) => GetFocusedSurface),
    Endpoint([Lit("surfaces"), Param(["focused"])], ["GET"], (v, a: Args) => GetSurface(At(a.path, 1))),
    Endpoint([Lit("surfaces"), Id, Lit("commands")], ["GET"], (v, a: Args) => ListCommands(At(a.path, 1))),
    Endpoint([Lit("surfaces"), Id, Lit("actions")], ["POST"], (v, a: Args) => ExecuteAction(At(a.path, 1), a.body)),
    Endpoint([Lit("surfaces"), Id, Lit("screen")], ["GET"], (v, a: Args) => GetScreenContents(At(a.path, 1)))
  ]

  /** Generation two, as the route comments of the generation-two switch list it. */
  const V2Endpoints: seq<Endpoint> := [
    Endpoint([], ["GET"], (v, a) => ApiInfoV2),
    Endpoint([Lit("terminals")], ["GET", "POST"],
             (v: string, a: Args) => if v == "GET" then ListTerminalsV2 else CreateTerminalV2(a.body)),
    Endpoint([Lit("quick-terminal")], ["POST"], (v, a) => OpenQuickTerminalV2),
    Endpoint([Lit("commands")], ["GET"], (v, a: Args) => ListCommandsV2(Lookup(a.query, "terminal"))),
    Endpoint([Lit("terminals"), Lit("focused")], ["GET"], (v, a) => GetFocusedTerminalV2),
    Endpoint([Lit("terminals"), Param(["focused"])], ["GET", "DELETE"],
             (v: string, a: Args) => if v == "GET" then GetTerminalV2(At(a.path, 1))
                                     else CloseTerminalV2(At(a.path, 1), a.parseQueryBool(Lookup(a.query, "confirm")))),
    Endpoint([Lit("terminals"), Id, Lit("focus")], ["POST"], (v, a: Args) => FocusTerminalV2(At(a.path, 1))),
    Endpoint([Lit("terminals"), Id, Lit("input")], ["POST"], (v, a: Args) => InputTerminalV2(At(a.path, 1), a.body)),
    Endpoint([Lit("terminals"), Id, Lit("action")], ["POST"], (v, a: Args) => ActionTerminalV2(At(a.path, 1), a.body)),
    Endpoint([Lit("terminals"), Id, Lit("key")], ["POST"], (v, a: Args) => KeyTerminalV2(At(a.path, 1), a.body)),
    Endpoint([Lit("terminals"), Id, Lit("screen")], ["GET"], (v, a: Args) => GetScreenContentsV2(At(a.path, 1))),
    Endpoint([Lit("terminals"), Id, Lit("details"), Id], ["GET"],
             (v, a: Args) => GetTerminalDetailsV2(At(a.path, 1), At(a.path, 3))),
    Endpoint([Lit("terminals"), Id, Lit("mouse"), Lit("button")], ["POST"],
             (v, a: Args) => MouseButtonV2(At(a.path, 1), a.body)),
    Endpoint([Lit("terminals"), Id, Lit("mouse"), Lit("position")], ["POST"],
             (v, a: Args) => MousePositionV2(At(a.path, 1), a.body)),
    Endpoint([Lit("terminals"), Id, Lit("mouse"), Lit("scroll")], ["POST"],
             (v, a: Args) => MouseScrollV2(At(a.path, 1), a.body))
  ]

  /** `i` is an endpoint of `table` whose pattern matches `path`. */
  ghost predicate MatchesAt(table: seq<Endpoint>, path: seq<string>, i: int)
  {
    0 <= i < |table| && Matches(table[i].pattern, path)
  }

  /**
   The table's verdict on a request: served by the handler the matching
   endpoint builds, refused with the endpoint's methods, or unknown.
   */
  datatype Verdict = Accept(handler: Handler) | Reject(allowed: seq<string>) | Miss

  ghost function TableVerdict(table: seq<Endpoint>, verb: string, args: Args): Verdict
  {
    if exists i :: MatchesAt(table, args.path, i) then
      var i :| MatchesAt(table, args.path, i);
      if verb in table[i].methods then Accept(table[i].build(verb, args)) else Reject(table[i].methods)
    else Miss
  }

  /** The router's response, forgetting only the "not found" message. */
  function Classify(r: Response): Verdict
  {
    match r
    case Handled(h) => Accept(h)
    case MethodNotAllowed(allowed) => Reject(allowed)
    case NotFound(_) => Miss
  }

  /**
   The position of the generation-one endpoint a path falls under, or -1:
   a proof device that turns pattern matching over the whole table into a
   few comparisons.
   */
  ghost function V1Key(path: seq<string>): int
  {
    if |path| == 0 then 0
    else if path[0] != "surfaces" then -1
    else if |path| == 1 then 1
    else if |path| == 2 then (if path[1] == "focused" then 2 else 3)
    else if |path| == 3 then
      (if path[2] == "commands" then 4 else if path[2] == "actions" then 5 else if path[2] == "screen" then 6 else -1)
    else -1
  }

  /** A generation-one path matches exactly the endpoint its key names. */
  lemma V1Decode(path: seq<string>, i: int)
    ensures MatchesAt(V1Endpoints, path, i) <==> 0 <= i == V1Key(path)
  {
    if 0 <= i == V1Key(path) {
      var p := V1Endpoints[i].pattern;
      assert |p| == |path|;
      forall k | 0 <= k < |path| ensures PatMatches(p[k], path[k]) {
      }
    }
    if MatchesAt(V1Endpoints, path, i) {
      var p := V1Endpoints[i].pattern;
      forall k | 0 <= k < |path| ensures PatMatches(p[k], path[k]) {
      }
      if i == 3 {
        assert PatMatches(p[1], path[1]);
      }
    }
  }

  /** No path matches two generation-one endpoints. */
  lemma V1Unambiguous(path: seq<string>, i: int, j: int)
    requires MatchesAt(V1Endpoints, path, i) && MatchesAt(V1Endpoints, path, j)
    ensures i == j
  {
    V1Decode(path, i);
    V1Decode(path, j);
  }

  /**
   The generation-one switch agrees with the generation-one table on every
   request, handler and arguments included; the query is never read.
   */
  lemma V1Agrees(verb: string, path: seq<string>, query: map<string, string>, body: Option<Bytes>,
                 parseQueryBool: Option<string> -> bool)
    ensures Classify(RouteV1(verb, path, body)) == TableVerdict(V1Endpoints, verb, Args(path, query, body, parseQueryBool))
  {
    var args := Args(path, query, body, parseQueryBool);
    forall i ensures MatchesAt(V1Endpoints, path, i) <==> 0 <= i == V1Key(path) {
      V1Decode(path, i);
    }
    var k := V1Key(path);
    if k >= 0 {
      assert MatchesAt(V1Endpoints, path, k);
      assert TableVerdict(V1Endpoints, verb, args)
             == if verb in V1Endpoints[k].methods then Accept(V1Endpoints[k].build(verb, args))
                else Reject(V1Endpoints[k].methods);
    } else {
      assert TableVerdict(V1Endpoints, verb, args) == Miss;
    }
  }

  /** The position of the generation-two endpoint a path falls under, or -1. */
  ghost function V2Key(path: seq<string>): int
  {
    if |path| == 0 then 0
    else if |path| == 1 then
      (if path[0] == "terminals" then 1 else if path[0] == "quick-terminal" then 2
       else if path[0] == "commands" then 3 else -1)
    else if path[0] != "terminals" then -1
    else if |path| == 2 then (if path[1] == "focused" then 4 else 5)
    else if |path| == 3 then
      (if path[2] == "focus" then 6 else if path[2] == "input" then 7 else if path[2] == "action" then 8
       else if path[2] == "key" then 9 else if path[2] == "screen" then 10 else -1)
    else if |path| == 4 then
      (if path[2] == "details" then 11
       else if path[2] != "mouse" then -1
       else if path[3] == "button" then 12 else if path[3] == "position" then 13
       else if path[3] == "scroll" then 14 else -1)
    else -1
  }

  /** A generation-two path matches exactly the endpoint its key names. */
  lemma V2Decode(path: seq<string>, i: int)
    ensures MatchesAt(V2Endpoints, path, i) <==> 0 <= i == V2Key(path)
  {
    if 0 <= i == V2Key(path) {
      var p := V2Endpoints[i].pattern;
      assert |p| == |path|;
      forall k | 0 <= k < |path| ensures PatMatches(p[k], path[k]) {
      }
    }
    if MatchesAt(V2Endpoints, path, i) {
      var p := V2Endpoints[i].pattern;
      forall k | 0 <= k < |path| ensures PatMatches(p[k], path[k]) {
      }
      if i == 5 {
        assert PatMatches(p[1], path[1]);
      }
    }
  }

  /** No path matches two generation-two endpoints. */
  lemma V2Unambiguous(path: seq<string>, i: int, j: int)
    requires MatchesAt(V2Endpoints, path, i) && MatchesAt(V2Endpoints, path, j)
    ensures i == j
  {
    V2Decode(path, i);
    V2Decode(path, j);
  }

  /**
   The generation-two switch agrees with the generation-two table on every
   request, handler and arguments included, but one kind: a method other
   than POST on the mouse fallback, which the table does not list and the
   switch refuses with `{POST}`.
   */
  lemma V2Agrees(verb: string, path: seq<string>, query: map<string, string>, body: Option<Bytes>,
                 parseQueryBool: Option<string> -> bool)
    ensures Classify(RouteV2(verb, path, query, body, parseQueryBool))
            == if MouseFallbackV2(path) && verb != "POST" then Reject(["POST"])
               else TableVerdict(V2Endpoints, verb, Args(path, query, body, parseQueryBool))
  {
    var args := Args(path, query, body, parseQueryBool);
    forall i ensures MatchesAt(V2Endpoints, path, i) <==> 0 <= i == V2Key(path) {
      V2Decode(path, i);
    }
    var k := V2Key(path);
    if k >= 0 {
      assert MatchesAt(V2Endpoints, path, k);
      assert TableVerdict(V2Endpoints, verb, args)
             == if verb in V2Endpoints[k].methods then Accept(V2Endpoints[k].build(verb, args))
                else Reject(V2Endpoints[k].methods);
    } else {
      assert TableVerdict(V2Endpoints, verb, args) == Miss;
    }
  }

  /** The tables' verdict on a whole split path, the info endpoint at the root included. */
  ghost function TablesVerdict(req: Request, segs: seq<string>, parseQueryBool: Option<string> -> bool): Verdict
  {
    if segs == [] then Accept(ApiInfo)
    else if |segs| < 2 || segs[0] != "api" then Miss
    else if segs[1] == "v1" then TableVerdict(V1Endpoints, req.verb, Args(segs[2..], req.query, req.body, parseQueryBool))
    else if segs[1] == "v2" then TableVerdict(V2Endpoints, req.verb, Args(segs[2..], req.query, req.body, parseQueryBool))
    else Miss
  }

  /**
   The router agrees with the tables on every request: it serves exactly
   the listed methods of the one endpoint a path matches, with the handler
   and arguments that endpoint builds, refuses the others with exactly that
   endpoint's methods, and answers "not found" for every path no endpoint
   matches, with the single exception of the mouse fallback under a method
   other than POST.
   */
  lemma RouterAgreesWithTable(req: Request, parseQueryBool: Option<string> -> bool)
    ensures var segs := Split(req.path);
            Classify(Route(req, parseQueryBool))
            == if MouseFallback(segs) && req.verb != "POST" then Reject(["POST"])
               else TablesVerdict(req, segs, parseQueryBool)
  {
    var segs := Split(req.path);
    if |segs| >= 2 && segs[0] == "api" && segs[1] == "v1" {
      V1Agrees(req.verb, segs[2..], req.query, req.body, parseQueryBool);
    } else if |segs| >= 2 && segs[0] == "api" && segs[1] == "v2" {
      V2Agrees(req.verb, segs[2..], req.query, req.body, parseQueryBool);
    }
  }
}

=== FILE: router_properties.dfy ===
/**
 Properties of the request router: how raw paths reach the segment switch,
 version rejection, the exactness of every allow-set, keyword-before-parameter
 precedence, the per-shape outcomes of both generations, and which inputs
 the outcome does not depend on.
 */
module RouterProperties {
  import opened Common
  import opened PathSplit
  import opened ApiRouter

  /** Routing a canonical path `/s1/s2/...` is routing its segments. */
  lemma RouteOnCanonicalPath(verb: string, segs: seq<string>, query: map<string, string>, body: Option<Bytes>,
                             parseQueryBool: Option<string> -> bool)
    requires WellFormed(segs)
    ensures Route(Request(verb, Canonical(segs), query, body), parseQueryBool)
            == RouteSegments(verb, segs, query, body, parseQueryBool)
  {
    SplitCanonical(segs);
  }

  /** A doubled slash anywhere in the path routes like a single one. */
  lemma RouteIgnoresDoubledSlash(verb: string, a: string, b: string, query: map<string, string>,
                                 body: Option<Bytes>, parseQueryBool: Option<string> -> bool)
    ensures Route(Request(verb, a + "//" + b, query, body), parseQueryBool)
            == Route(Request(verb, a + "/" + b, query, body), parseQueryBool)
  {
    DoubledSlashIsSingle(a, b);
  }

  /**
   A path made of slashes only (the empty path included) is the info
   endpoint for every method; apart from `GET /api/v1`, no other path is.
   */
  lemma RootPathIsApiInfo(req: Request, parseQueryBool: Option<string> -> bool)
    ensures Route(req, parseQueryBool) == Handled(ApiInfo)
            <==> (forall i :: 0 <= i < |req.path| ==> req.path[i] == '/')
                 || (Split(req.path) == ["api", "v1"] && req.verb == "GET")
  {
    SplitEmptyIffSlashes(req.path, "");
  }

  /**
   Fewer than two segments, a first segment other than `api`, or a version
   other than `v1`/`v2` is "not found", whatever the method.
   */
  lemma InvalidPrefixIsNotFound(verb: string, segs: seq<string>, query: map<string, string>, body: Option<Bytes>,
                                parseQueryBool: Option<string> -> bool)
    requires segs != []
    requires |segs| < 2 || segs[0] != "api" || (segs[1] != "v1" && segs[1] != "v2")
    ensures RouteSegments(verb, segs, query, body, parseQueryBool) == NotFound(InvalidApiPath)
  {
  }

  /** Any request under an unknown version, `/api/v3/...` say, is "not found". */
  lemma UnknownVersionIsNotFound(verb: string, version: string, rest: seq<string>, query: map<string, string>,
                                 body: Option<Bytes>, parseQueryBool: Option<string> -> bool)
    requires Segment(version) && version != "v1" && version != "v2"
    requires WellFormed(rest)
    ensures Route(Request(verb, Canonical(["api", version] + rest), query, body), parseQueryBool)
            == NotFound(InvalidApiPath)
  {
    var segs := ["api", version] + rest;
    assert WellFormed(segs) by {
      forall i | 0 <= i < |segs| ensures Segment(segs[i]) {
        if i >= 2 { assert segs[i] == rest[i - 2]; }
      }
    }
    RouteOnCanonicalPath(verb, segs, query, body, parseQueryBool);
  }

  /** Allow-set exactness within generation one. */
  lemma AllowSetIsExactV1(verb: string, path: seq<string>, body: Option<Bytes>)
    requires RouteV1(verb, path, body).MethodNotAllowed?
    ensures var allowed := RouteV1(verb, path, body).allowed;
            && (forall m :: m !in allowed ==> RouteV1(m, path, body) == MethodNotAllowed(allowed))
            && (forall m :: RouteV1(m, path, body).Handled? <==> m in allowed)
  {
    if |path| == 0 {
    } else if |path| == 1 {
    } else if |path| == 2 {
    } else {
      assert |path| == 3;
    }
  }

  /** Allow-set exactness within generation two, where the mouse fallback handles no method. */
  lemma AllowSetIsExactV2(verb: string, path: seq<string>, query: map<string, string>, body: Option<Bytes>,
                          parseQueryBool: Option<string> -> bool)
    requires RouteV2(verb, path, query, body, parseQueryBool).MethodNotAllowed?
    ensures var allowed := RouteV2(verb, path, query, body, parseQueryBool).allowed;
            && (forall m :: m !in allowed ==> RouteV2(m, path, query, body, parseQueryBool) == MethodNotAllowed(allowed))
            && (forall m :: RouteV2(m, path, query, body, parseQueryBool).Handled?
                  <==> m in allowed && !MouseFallbackV2(path))
  {
    if |path| == 0 {
    } else if |path| == 1 {
    } else if |path| == 2 {
    } else if |path| == 3 {
    } else {
      assert |path| == 4;
    }
  }

  /**
   Every allow-set is exact: on a path that answers "method not allowed",
   the methods it lists are precisely those the same path hands to a
   handler, and every other method gets the same answer. The one exception
   is the mouse fallback, whose allow-set names POST although POST there is
   "not found".
   */
  lemma AllowSetIsExact(verb: string, segs: seq<string>, query: map<string, string>, body: Option<Bytes>,
                        parseQueryBool: Option<string> -> bool)
    requires RouteSegments(verb, segs, query, body, parseQueryBool).MethodNotAllowed?
    ensures var allowed := RouteSegments(verb, segs, query, body, parseQueryBool).allowed;
            && (forall m :: m !in allowed ==>
                  RouteSegments(m, segs, query, body, parseQueryBool) == MethodNotAllowed(allowed))
            && (forall m :: RouteSegments(m, segs, query, body, parseQueryBool).Handled?
                  <==> m in allowed && !MouseFallback(segs))
  {
    if segs[1] == "v1" {
      AllowSetIsExactV1(verb, segs[2..], body);
    } else {
      AllowSetIsExactV2(verb, segs[2..], query, body, parseQueryBool);
    }
  }

  /** Generation one: whether a path is "not found" does not depend on the method. */
  lemma NotFoundIsMethodIndependentV1(m1: string, m2: string, path: seq<string>, body: Option<Bytes>)
    ensures RouteV1(m1, path, body).NotFound? <==> RouteV1(m2, path, body).NotFound?
  {
    if |path| == 0 {
    } else if |path| == 1 {
    } else if |path| == 2 {
    } else if |path| == 3 {
    }
  }

  /** Generation two: the same, away from the mouse fallback. */
  lemma NotFoundIsMethodIndependentV2(m1: string, m2: string, path: seq<string>, query: map<string, string>,
                                      body: Option<Bytes>, parseQueryBool: Option<string> -> bool)
    requires !MouseFallbackV2(path)
    ensures RouteV2(m1, path, query, body, parseQueryBool).NotFound?
            <==> RouteV2(m2, path, query, body, parseQueryBool).NotFound?
  {
    if |path| == 0 {
    } else if |path| == 1 {
    } else if |path| == 2 {
    } else if |path| == 3 {
    } else if |path| == 4 {
    }
  }

  /**
   Whether a path is "not found" does not depend on the method, except on
   the mouse fallback.
   */
  lemma NotFoundIsMethodIndependent(m1: string, m2: string, segs: seq<string>, query: map<string, string>,
                                    body: Option<Bytes>, parseQueryBool: Option<string> -> bool)
    requires !MouseFallback(segs)
    ensures RouteSegments(m1, segs, query, body, parseQueryBool).NotFound?
            <==> RouteSegments(m2, segs, query, body, parseQueryBool).NotFound?
  {
    if |segs| >= 2 && segs[0] == "api" && segs[1] == "v1" {
      NotFoundIsMethodIndependentV1(m1, m2, segs[2..], body);
    } else if |segs| >= 2 && segs[0] == "api" && segs[1] == "v2" {
      NotFoundIsMethodIndependentV2(m1, m2, segs[2..], query, body, parseQueryBool);
    }
  }

  /**
   On the mouse fallback a POST is "not found" and every other method is
   refused with the allow-set `{POST}`.
   */
  lemma MouseChecksMethodFirst(verb: string, id: string, sub: string, query: map<string, string>,
                               body: Option<Bytes>, parseQueryBool: Option<string> -> bool)
    requires Segment(id) && Segment(sub)
    ensures var r := Route(Request(verb, Canonical(["api", "v2", "terminals", id, "mouse", sub]), query, body),
                           parseQueryBool);
            && (sub == "button" ==> r == Only(verb, "POST", MouseButtonV2(id, body)))
            && (sub == "position" ==> r == Only(verb, "POST", MousePositionV2(id, body)))
            && (sub == "scroll" ==> r == Only(verb, "POST", MouseScrollV2(id, body)))
            && (MouseFallback(["api", "v2", "terminals", id, "mouse", sub]) ==>
                  r == (if verb == "POST" then NotFound(EndpointNotFound) else MethodNotAllowed(["POST"])))
  {
    RouteOnCanonicalPath(verb, ["api", "v2", "terminals", id, "mouse", sub], query, body, parseQueryBool);
  }

  /**
   Keyword before parameter in generation one: `/api/v1/surfaces/focused`
   is the focused-surface endpoint, and the by-identifier handler is reached
   exactly for GET on `/api/v1/surfaces/{id}` with an id other than `focused`.
   */
  lemma V1FocusedIsKeyword(verb: string, id: string, query: map<string, string>, body: Option<Bytes>,
                           parseQueryBool: Option<string> -> bool)
    requires Segment(id)
    ensures Route(Request(verb, Canonical(["api", "v1", "surfaces", "focused"]), query, body), parseQueryBool)
            == Only(verb, "GET", GetFocusedSurface)
    ensures Route(Request(verb, Canonical(["api", "v1", "surfaces", id]), query, body), parseQueryBool)
            == Handled(GetSurface(id))
            <==> verb == "GET" && id != "focused"
  {
    RouteOnCanonicalPath(verb, ["api", "v1", "surfaces", "focused"], query, body, parseQueryBool);
    RouteOnCanonicalPath(verb, ["api", "v1", "surfaces", id], query, body, parseQueryBool);
  }

  /** The by-identifier handlers of both generations never receive the keyword `focused`. */
  lemma FocusedNeverAnIdentifier(verb: string, segs: seq<string>, query: map<string, string>, body: Option<Bytes>,
                                 parseQueryBool: Option<string> -> bool)
    ensures RouteSegments(verb, segs, query, body, parseQueryBool) != Handled(GetSurface("focused"))
    ensures RouteSegments(verb, segs, query, body, parseQueryBool) != Handled(GetTerminalV2("focused"))
    ensures forall c :: RouteSegments(verb, segs, query, body, parseQueryBool) != Handled(CloseTerminalV2("focused", c))
  {
  }

  /**
   The three generation-one sub-resources route for every identifier, with
   the identifier passed through unchanged.
   */
  lemma V1SubResources(verb: string, id: string, query: map<string, string>, body: Option<Bytes>,
                       parseQueryBool: Option<string> -> bool)
    requires Segment(id)
    ensures Route(Request(verb, Canonical(["api", "v1", "surfaces", id, "commands"]), query, body), parseQueryBool)
            == Only(verb, "GET", ListCommands(id))
    ensures Route(Request(verb, Canonical(["api", "v1", "surfaces", id, "actions"]), query, body), parseQueryBool)
            == Only(verb, "POST", ExecuteAction(id, body))
    ensures Route(Request(verb, Canonical(["api", "v1", "surfaces", id, "screen"]), query, body), parseQueryBool)
            == Only(verb, "GET", GetScreenContents(id))
  {
    RouteOnCanonicalPath(verb, ["api", "v1", "surfaces", id, "commands"], query, body, parseQueryBool);
    RouteOnCanonicalPath(verb, ["api", "v1", "surfaces", id, "actions"], query, body, parseQueryBool);
    RouteOnCanonicalPath(verb, ["api", "v1", "surfaces", id, "screen"], query, body, parseQueryBool);
  }

  /**
   `/api/v2/terminals` serves GET and POST and refuses everything else with
   exactly `{GET, POST}`; `/api/v2/terminals/{id}` (id not `focused`) serves
   GET and DELETE, DELETE with the parsed `confirm` flag, and refuses
   everything else with exactly `{GET, DELETE}`.
   */
  lemma V2TerminalsCollectionAndItem(verb: string, id: string, query: map<string, string>, body: Option<Bytes>,
                                     parseQueryBool: Option<string> -> bool)
    requires Segment(id) && id != "focused"
    ensures Route(Request(verb, Canonical(["api", "v2", "terminals"]), query, body), parseQueryBool)
            == if verb == "GET" then Handled(ListTerminalsV2)
               else if verb == "POST" then Handled(CreateTerminalV2(body))
               else MethodNotAllowed(["GET", "POST"])
    ensures Route(Request(verb, Canonical(["api", "v2", "terminals", id]), query, body), parseQueryBool)
            == if verb == "GET" then Handled(GetTerminalV2(id))
               else if verb == "DELETE" then Handled(CloseTerminalV2(id, parseQueryBool(Lookup(query, "confirm"))))
               else MethodNotAllowed(["GET", "DELETE"])
  {
    RouteOnCanonicalPath(verb, ["api", "v2", "terminals"], query, body, parseQueryBool);
    RouteOnCanonicalPath(verb, ["api", "v2", "terminals", id], query, body, parseQueryBool);
  }

  /** Keyword before parameter in generation two. */
  lemma V2FocusedIsKeyword(verb: string, query: map<string, string>, body: Option<Bytes>,
                           parseQueryBool: Option<string> -> bool)
    ensures Route(Request(verb, Canonical(["api", "v2", "terminals", "focused"]), query, body), parseQueryBool)
            == Only(verb, "GET", GetFocusedTerminalV2)
  {
    var segs := ["api", "v2", "terminals", "focused"];
    RouteOnCanonicalPath(verb, segs, query, body, parseQueryBool);
    assert segs[2..] == ["terminals", "focused"];
    assert RouteSegments(verb, segs, query, body, parseQueryBool)
           == RouteV2(verb, ["terminals", "focused"], query, body, parseQueryBool);
  }

  /**
   Generation one never reads the query, and neither does any path outside
   generation two.
   */
  lemma QueryOnlyMattersInV2(verb: string, segs: seq<string>, q1: map<string, string>, q2: map<string, string>,
                             body: Option<Bytes>, parseQueryBool: Option<string> -> bool)
    requires |segs| < 2 || segs[1] != "v2"
    ensures RouteSegments(verb, segs, q1, body, parseQueryBool) == RouteSegments(verb, segs, q2, body, parseQueryBool)
  {
  }

  /**
   Four or more segments after `/api/v1` are "not found" whatever the
   method, and the message echoes the method and the path.
   */
  lemma LongV1PathsAreNotFound(verb: string, rest: seq<string>, query: map<string, string>,
                               body: Option<Bytes>, parseQueryBool: Option<string> -> bool)
    requires |rest| >= 4
    ensures RouteSegments(verb, ["api", "v1"] + rest, query, body, parseQueryBool)
            == NotFound(UnmatchedEndpoint(verb, "v1", rest))
  {
    assert (["api", "v1"] + rest)[2..] == rest;
  }

  /** Five or more segments after `/api/v2` are "not found" in the same way. */
  lemma LongV2PathsAreNotFound(verb: string, rest: seq<string>, query: map<string, string>,
                               body: Option<Bytes>, parseQueryBool: Option<string> -> bool)
    requires |rest| >= 5
    ensures RouteSegments(verb, ["api", "v2"] + rest, query, body, parseQueryBool)
            == NotFound(UnmatchedEndpoint(verb, "v2", rest))
  {
    assert (["api", "v2"] + rest)[2..] == rest;
  }
}
